=== FILE: README.md ===
# LocalAgent command mailbox, modelled in Dafny

LocalAgent is a small daemon. It polls one JSON file, the command mailbox
`gpt_command.json`. Each poll it reads the file and, when the file holds a
request, normalises it: either the canonical form `{"command": ..., "params":
{...}}` or the legacy flat form, where every key other than `"command"` is a
parameter. It checks the command name against the `COMMANDS` registry, calls
the registered handler with the params as keyword arguments, and empties the
file. Two handlers guard themselves:

- `delete_file` does nothing unless `confirm` is truthy;
- `kill_process_by_name` refuses an empty name or a protected system process.

The model covers that pipeline as pure functions:

| module | models |
|---|---|
| `Json`, `Python` | decoded JSON values, Python truthiness, and hashability of a `dict` key |
| `Registry` | the `COMMANDS` table, as a map from name to handler signature (parameter names and defaults) |
| `Request` | `normalize_and_validate_command`, checked against a declarative view (`IsRequest`, `CommandOf`, `ParamsOf`, `Registered`) |
| `Binding` | Python keyword binding of `action(**params)`: an unexpected keyword, missing arguments, defaults filled in |
| `Handlers` | the guards at the start of `delete_file` and `kill_process_by_name`; the rest of each handler body is an opaque function |
| `Dispatcher` | `dispatch_command` and the way it classifies how a call ended |
| `Text` | `str.strip()` with Python's whitespace set |
| `Mailbox` | one pass of `process_command_file` with its `finally: clear_command_file()`, and the polling loop as a sequence of passes while a producer writes between them |
| `Scenarios` | the repository's unit tests, stated as lemmas about the model |

The outside world becomes parameters of a pass (`Mailbox.Env`):

- whether the file can be read: the size check, opening, and UTF-8 decoding. A file whose existence check fails reads as missing, because `os.path.exists` then answers False and the pass returns silently;
- whether it can be written, for the clear;
- the JSON parser;
- what a handler body does once its guard lets it through.

A pass returns the mailbox it leaves behind and the ordered list of its
observable events: warnings, the unexpected-error log, dispatches with their
outcome, and clear attempts.

Behaviour of agent.py that the model keeps as written:

- agent.py has no security tiers and no dispatcher-level confirmation gate:
  every registered command is dispatched alike. The only confirmation is
  `delete_file`'s own `if not confirm`, which tests truthiness, so the string
  `"no"` lets a deletion through (`Scenarios.DispatchDeleteWithStringConfirm`).
- `process_command_file` clears the mailbox in `finally`, after the handler
  has run, so the handler still sees its request in the file (`Event.seen`).
  When the clear fails, the same request is dispatched again on every later
  pass, until a new write replaces it (`Mailbox.ReplayWhenClearFails`).
- A falsy `"params"` (`null`, `0`, `""`, `[]`, `false`) counts as `{}`, as
  `data.get("params", {}) or {}` does.
- A non-empty list or object as `"command"` makes `command_name not in
  COMMANDS` raise `TypeError`. The outer `except Exception` of
  `process_command_file` catches it as an unexpected error.

## Model

| member | source | states |
|---|---|---|
| Registry.CommandsWellFormed | agent.py:314-334 | every registered handler declares each parameter name once, and no registered command name is empty |
| Registry.GuardedSignatures | agent.py:130-146 | `delete_file` accepts exactly `path` and `confirm`; `kill_process_by_name` accepts exactly `name` |
| Request.Normalize | agent.py:336-364 | each outcome holds iff its condition holds, in the order the checks short-circuit: not a non-empty object → dropped silently; falsy command → missing-command warning; unhashable command → TypeError; unregistered → unknown-command warning; params not an object → invalid-params warning; otherwise accepted with the registered name and the params of the declarative view |
| Request.LegacyFormFoldsKeys | agent.py:345-348 | without `"params"`, an accepted request's params are all top-level keys except `"command"` |
| Request.CanonicalParamsPassThrough | agent.py:359-364 | an object under `"params"` is passed on unchanged, the empty object included |
| Request.ExtraKeysIgnored | agent.py:345-364 | when `"params"` is present, adding any other top-level key does not change the outcome |
| Request.LegacyMatchesCanonical | agent.py:345-364 | a flat request and the same request wrapped under `"params"` get the same outcome |
| Request.FalsyParamsBecomeEmpty | agent.py:359 | a falsy `"params"` value is accepted as no params at all |
| Request.UnregisteredNeverAccepted | agent.py:351-357 | a string command not in the registry is never accepted, and is the unknown-command rejection when the request is non-empty and the name is not empty |
| Binding.MissingRequired | agent.py:375 | lists every parameter without a default that the keywords leave out, and nothing else |
| Binding.Fill | agent.py:375 | every declared parameter gets a value: the supplied keyword's, else its default |
| Binding.Bind | agent.py:375 | binding succeeds iff every keyword is declared and every required parameter is supplied; an unexpected keyword is reported before missing arguments; the first error names exactly the undeclared keys, the second exactly the required parameters left out, in declaration order |
| Handlers.DeleteFileGuard | agent.py:132-134 | the guard lets the call through iff `confirm` is truthy, and otherwise refuses it as unconfirmed |
| Handlers.KillProcessGuard | agent.py:148-154 | the guard lets the call through iff the name is a non-empty string whose lower-case form is not protected; a truthy non-string raises AttributeError, which is not a TypeError (`name.lower()`); a falsy name is refused as missing, a protected one as protected |
| Handlers.RunHandler | agent.py:130-154 | a handler reaches its filesystem or process work iff its guard lets it; a refusing guard returns normally, and a crashing guard raises |
| Handlers.DeleteFileNeedsTruthyConfirm | agent.py:130-134 | `delete_file` gets past its guard iff `confirm` is truthy, and returns normally otherwise |
| Handlers.KillProcessGuardedByName | agent.py:146-154 | `kill_process_by_name` gets past its guard iff the name is a non-empty string whose lower-case form is not protected |
| Handlers.KillProcessGuardIgnoresCase | agent.py:152-154 | two names with the same lower-case form get the same guard decision |
| Handlers.KillProcessRefusesMixedCase | agent.py:28-37 | `SvcHost.EXE` is refused as protected |
| Dispatcher.Dispatch | agent.py:366-381 | the body runs iff binding succeeds, and then with exactly the bound arguments: every declared parameter, holding the supplied value or else its default; success iff the body returns; every TypeError, from binding or from the body, is a mismatch listing the provided keys, and one from binding also carries the binding error that its message describes; any other exception is an execution failure; no exception escapes |
| Dispatcher.UnexpectedKeywordIsMismatch | agent.py:374-379 | an undeclared keyword gives a mismatch whose logged error names it, and the body never runs |
| Dispatcher.MissingRequiredIsMismatch | agent.py:374-379 | a required parameter left out gives a mismatch and the body never runs; when no keyword is undeclared, the logged error names the missing parameter |
| Dispatcher.KillProcessNonStringNameFails | agent.py:146-152 | a truthy non-string `name` makes `name.lower()` raise AttributeError, logged as an execution failure rather than a mismatch |
| Dispatcher.DeleteFileWithoutConfirmHasNoEffect | agent.py:130-134 | a `delete_file` request whose `confirm` is absent or falsy never gets past the guard and never fails |
| Dispatcher.KillProcessOnlyUnprotectedNames | agent.py:146-154 | a dispatched `kill_process_by_name` reaches the process table only with exactly a `name` keyword holding a non-empty, unprotected string |
| Text.LeadingSpaces | agent.py:396 | the leading run is all whitespace, and the character after it is not |
| Text.TrailingSpaces | agent.py:396 | the trailing run is all whitespace, and the character before it is not |
| Text.Strip | agent.py:396-398 | the result is empty iff the text is all whitespace; otherwise it is the text between the two whitespace runs and neither starts nor ends with whitespace |
| Text.StripIdempotent | agent.py:396 | stripping twice is stripping once |
| Text.StripKeepsTrimmed | agent.py:396 | text that starts and ends with a non-space is unchanged |
| Mailbox.Clear | agent.py:418-424 | a working clear leaves an empty file, creating it if it was missing; a failing one changes nothing |
| Mailbox.TryBlock | agent.py:391-414 | the only path inside the `try` that changes the mailbox is malformed JSON, which warns and clears once |
| Mailbox.TryBlockSlot | agent.py:391-414 | the `try` block leaves the mailbox either as it was or as one clear leaves it |
| Mailbox.DispatchOf | agent.py:408-411 | the dispatch a deliverable mailbox calls for: the name and params the validator accepted from its text, with a registered name, and the report of dispatching exactly those |
| Mailbox.TryBlockDispatch | agent.py:391-411 | the `try` block dispatches iff the mailbox holds a deliverable request; then its only event is the dispatch of the name and params the validator accepted from the file; otherwise it dispatches nothing |
| Mailbox.Pass | agent.py:387-424 | a pass always ends with a clear attempt, after any dispatch; it leaves the mailbox empty when writable and untouched otherwise; it dispatches at most once, and exactly once iff the request is deliverable; then its events are the dispatch of the accepted name and params, made while the mailbox still holds the request, followed by the clear |
| Mailbox.ClearIdempotent | agent.py:418-424 | clearing twice leaves the mailbox as clearing once does |
| Mailbox.MalformedIsDropped | agent.py:400-405 | text that does not parse gives one warning and two clears (inside `try`, then in `finally`), and is never normalised |
| Mailbox.NonRequestIsSilent | agent.py:342-343 | a decoded value that is not a non-empty object gives no log line; only the final clear happens |
| Mailbox.BlankMailboxIsNoop | agent.py:391-398 | a missing, empty or whitespace-only mailbox gives no log line and no dispatch, and the pass still leaves an empty file behind |
| Mailbox.Poll | agent.py:447-450 | one result per pass; for a pass that always empties the mailbox, the mailbox is empty after at least one pass |
| Mailbox.Run | agent.py:447-450 | one result per pass; with a working clear the mailbox is empty after at least one pass |
| Mailbox.PollDeliversOnlyFreshWrites | agent.py:447-449 | for any pass that always empties the mailbox, a pass of the loop dispatches only a request written just before it, the one waiting at the start (first pass), or, after the first pass, whatever the pass dispatches from an emptied mailbox |
| Mailbox.PollReplaysStuckRequest | agent.py:447-449 | for any pass that dispatches and leaves the mailbox as it found it, every later pass with no new write dispatches again |
| Mailbox.AtMostOnceDelivery | agent.py:387-424 | with a working clear, each written request is dispatched at most once by the polling loop |
| Mailbox.ReplayWhenClearFails | agent.py:418-424 | with a failing clear and no new writes, a deliverable request is dispatched on every pass |
| Mailbox.Startup | agent.py:438-442 | after start-up the mailbox exists: an existing file is left as it is, and a missing one holds `{}` |
| Mailbox.StartupPlaceholderIsInert | agent.py:438-442 | the `{}` that `main` writes into a missing mailbox is dropped silently by the first pass and never dispatched |
| Scenarios.StandardCommandTest | tests/test_agent.py:25-31 | the canonical `message` request is accepted with its params |
| Scenarios.LegacyCommandTest | tests/test_agent.py:33-39 | the flat `message` request is accepted with `text` folded into params |
| Scenarios.UnknownCommandTest | tests/test_agent.py:41-46 | `non_existent_command` is rejected as unknown |
| Scenarios.MissingCommandTest | tests/test_agent.py:48-53 | a request without `"command"` is rejected as missing its command |
| Scenarios.EmptyObjectTest | tests/test_agent.py:55-59 | `{}` is dropped |
| Scenarios.InvalidParamsTest | tests/test_agent.py:61-66 | string params are rejected as invalid |
| Scenarios.DispatchConfirmedDelete | tests/test_agent.py:68-74 | `delete_file` with `confirm` true is called once with exactly the given arguments, and succeeds when its body returns |
| Scenarios.DispatchWrongParam | tests/test_agent.py:76-87 | `wrong_param` gives a mismatch listing the provided keys, whose error is the unexpected keyword `wrong_param`, and the body is not run |
| Scenarios.DeleteFileBindsAsGiven | agent.py:130-134 | a `delete_file` call with both keywords binds them unchanged, and gets past the guard iff `confirm` is truthy |
| Scenarios.DispatchUnconfirmedDelete | tests/test_agent.py:107-114 | `confirm` false: the call succeeds without reaching the existence check |
| Scenarios.DeleteFileDefaultsConfirm | agent.py:130 | binding `delete_file` with only `path` fills in `confirm` with its default False |
| Scenarios.DispatchDeleteConfirmMissing | tests/test_agent.py:116-123 | `confirm` left out takes its default, False, and the call succeeds without reaching the existence check |
| Scenarios.DispatchDeleteWithStringConfirm | agent.py:130-132 | the truthy string `"no"` as `confirm` gets past the guard |
| Scenarios.LegacyMessageDispatch | agent.py:345-375 | the flat request `{"command": "message", "text": "hi"}` calls `show_message` with `text="hi"` |
| Scenarios.LegacyMessagePass | agent.py:387-416 | read from the mailbox, that request is dispatched while the file still holds it, and the pass then empties the file |

## Left out

- The handler bodies past their guards: the filesystem, process, PowerShell,
  Defender and GUI work. They are the opaque `Env.rest`, which says only
  whether the body returns, raises `TypeError`, or raises anything else.
- `system_check` and every other unguarded handler: these are modelled only
  through their signatures in the registry.
- `json.loads` is the abstract `Env.parse`. Its grammar, duplicate-key
  handling and `NaN`/`Infinity` literals are not modelled. Which texts make
  it raise something other than `JSONDecodeError` is not modelled either,
  e.g. a `RecursionError` on deep nesting or a `ValueError` for an over-long
  integer literal. That outcome is `ParseCrashed`, which the pass treats as
  the outer `except` does: one error log, and only the final clear.
- Logging is modelled as events. Message texts, log levels, tracebacks and
  the handler setup of `setup_logger` (agent.py:43-63) are not part of this model.
- `main`'s argument parsing, `time.sleep`, and the `KeyboardInterrupt` and
  critical-error exits: the loop is modelled as a finite sequence of passes.
- Exceptions that are not `Exception` subclasses, and a handler that writes
  to the mailbox file itself.
- Handlers.KillProcessGuard: lower-casing covers ASCII letters only. No
  protected name contains a character that full Unicode `str.lower` maps
  differently, such as the Kelvin sign becoming `k`, but such names are not
  modelled.
- Dispatcher.Dispatch: CPython's `TypeError` message names the first
  unexpected keyword only, while the model's binding error keeps the set of
  all of them. The message of a `TypeError` raised inside a handler body is
  opaque, so that mismatch carries no cause.
- Mailbox.Pass: the read failures, which are `getsize`, `open` and UTF-8
  decoding, are a single `readable` flag. A failing existence check is the
  missing-file case. The mailbox is
  modelled as a value that does not change during a pass, so a producer
  writing in the middle of a pass is not modelled.

=== FILE: binding.dfy ===
/** Python's keyword binding for `action(**params)` on a handler without `**kwargs`. */
module Binding {
  import opened Wrappers
  import opened Json
  import opened Registry

  /** The two `TypeError`s binding can raise. CPython rejects an unexpected
      keyword before it looks for missing arguments; its message names one
      unexpected keyword, the model keeps all of them. */
  datatype BindError =
    | UnexpectedKeywords(keys: set<string>)
    | MissingArguments(names: seq<string>)

  /** The call binds iff every keyword is a declared parameter and every
      parameter without a default is supplied. */
  ghost predicate Binds(sig: Signature, kwargs: map<string, Json>) {
    && (forall k :: k in kwargs ==> k in Names(sig))
    && (forall i :: 0 <= i < |sig| && sig[i].default.None? ==> sig[i].name in kwargs)
  }

  /** The required parameters the keywords leave out, in declaration order. */
  function MissingRequired(sig: Signature, kwargs: map<string, Json>): (r: seq<string>)
    ensures forall i :: 0 <= i < |sig| && sig[i].default.None? && sig[i].name !in kwargs ==> sig[i].name in r
    ensures forall n :: n in r ==> n !in kwargs && exists i :: 0 <= i < |sig| && sig[i].name == n && sig[i].default.None?
  {
    if sig == [] then []
    else
      var rest := MissingRequired(sig[1..], kwargs);
      assert forall i :: 1 <= i < |sig| ==> sig[i] == sig[1..][i - 1];
      if sig[0].default.None? && sig[0].name !in kwargs then [sig[0].name] + rest else rest
  }

  /** The local variables of the call: a supplied keyword's value, else the default. */
  function Fill(sig: Signature, kwargs: map<string, Json>): (r: map<string, Json>)
    requires DistinctNames(sig)
    requires forall i :: 0 <= i < |sig| && sig[i].default.None? ==> sig[i].name in kwargs
    ensures r.Keys == Names(sig)
    ensures forall k :: k in kwargs && k in Names(sig) ==> r[k] == kwargs[k]
    ensures forall i :: 0 <= i < |sig| && sig[i].name !in kwargs ==> sig[i].name in r && sig[i].default == Some(r[sig[i].name])
  {
    if sig == [] then map[]
    else
      var p := sig[0];
      assert forall i :: 1 <= i < |sig| ==> sig[i] == sig[1..][i - 1];
      Fill(sig[1..], kwargs)[p.name := if p.name in kwargs then kwargs[p.name] else p.default.value]
  }

  /** Binding succeeds exactly when Binds holds; then every parameter gets a
      value, the supplied ones unchanged and the rest their defaults. */
  function Bind(sig: Signature, kwargs: map<string, Json>): (r: Result<map<string, Json>, BindError>)
    requires DistinctNames(sig)
    ensures r.Ok? <==> Binds(sig, kwargs)
    ensures r.Ok? ==> r.value.Keys == Names(sig)
    ensures r.Ok? ==> forall k :: k in kwargs ==> r.value[k] == kwargs[k]
    ensures r.Ok? ==> forall i :: 0 <= i < |sig| && sig[i].name !in kwargs ==>
      sig[i].name in r.value && sig[i].default == Some(r.value[sig[i].name])
    ensures r.Err? && r.error.UnexpectedKeywords? ==>
      r.error.keys != {} && forall k :: k in r.error.keys <==> k in kwargs && k !in Names(sig)
    ensures r.Err? && r.error.MissingArguments? ==>
      kwargs.Keys <= Names(sig) && r.error.names != [] && forall n :: n in r.error.names ==> n !in kwargs
    ensures r.Err? && r.error.MissingArguments? ==> r.error.names == MissingRequired(sig, kwargs)
  {
    var unexpected := set k | k in kwargs && k !in Names(sig);
    if unexpected != {} then Err(UnexpectedKeywords(unexpected))
    else
      assert forall k :: k in kwargs ==> k in Names(sig) by {
        assert forall k :: k in kwargs && k !in Names(sig) ==> k in unexpected;
      }
      var missing := MissingRequired(sig, kwargs);
      if missing != [] then
        assert missing[0] in missing;
        Err(MissingArguments(missing))
      else Ok(Fill(sig, kwargs))
  }
}

=== FILE: dispatch.dfy ===
/** `dispatch_command`: call the registered handler with the params as keyword
    arguments and classify how the call ended. No exception leaves it. */
module Dispatcher {
  import opened Wrappers
  import opened Json
  import opened Python
  import opened Registry
  import opened Binding
  import opened Handlers

  /** The log line that closes a dispatch. A parameter mismatch lists the keys
      that were provided and, when binding raised it, the binding error the
      `TypeError` describes; the message of a `TypeError` raised inside the
      body is opaque. */
  datatype Status =
    | Succeeded
    | Mismatched(provided: set<string>, cause: Option<BindError>)
    | Failed(error: PyError)

  /** `call` holds the handler's local variables when its body ran (at most once). */
  datatype Report = Report(call: Option<map<string, Json>>, reachedEffects: bool, status: Status)

  /** Every `TypeError` counts as a parameter mismatch, whether binding raised it
      or the handler body did; any other exception is an execution failure. */
  function Dispatch(name: string, params: map<string, Json>, rest: Opaque): (r: Report)
    requires name in Commands
    ensures r.call.Some? <==> Binds(Commands[name], params)
    ensures r.call.Some? ==>
      && r.call.value.Keys == Names(Commands[name])
      && (forall k :: k in params ==> r.call.value[k] == params[k])
    ensures r.call.Some? ==>
      forall i :: 0 <= i < |Commands[name]| && Commands[name][i].name !in params ==>
        Commands[name][i].default == Some(r.call.value[Commands[name][i].name])
    ensures r.status.Succeeded? <==>
      r.call.Some? && RunHandler(name, r.call.value, rest).outcome == Returned
    ensures r.status.Mismatched? <==>
      r.call.None? || RunHandler(name, r.call.value, rest).outcome == Raised(TypeError)
    ensures r.status.Failed? <==>
      r.call.Some? && RunHandler(name, r.call.value, rest).outcome == Raised(OtherError)
    ensures r.status.Mismatched? ==> r.status.provided == params.Keys
    ensures r.call.None? ==>
      Bind(Commands[name], params).Err? && r.status.cause == Some(Bind(Commands[name], params).error)
    ensures r.call.Some? && r.status.Mismatched? ==> r.status.cause.None?
    ensures r.status.Failed? ==> r.status.error == OtherError
    ensures r.reachedEffects <==> r.call.Some? && GuardFor(name, r.call.value).Proceed?
  {
    CommandsWellFormed();
    match Bind(Commands[name], params)
    case Err(e) => Report(None, false, Mismatched(params.Keys, Some(e)))
    case Ok(args) =>
      var run := RunHandler(name, args, rest);
      var status :=
        match run.outcome
        case Returned => Succeeded
        case Raised(TypeError) => Mismatched(params.Keys, None)
        case Raised(OtherError) => Failed(OtherError);
      Report(Some(args), run.reachedEffects, status)
  }

  // ---------------------------------------------------------------------------
  // Properties
  // ---------------------------------------------------------------------------

  /** An unexpected keyword is a mismatch whose error names it, and the handler
      body never runs. */
  lemma UnexpectedKeywordIsMismatch(name: string, params: map<string, Json>, key: string, rest: Opaque)
    requires name in Commands && key in params && key !in Names(Commands[name])
    ensures var r := Dispatch(name, params, rest);
      && r.call.None? && !r.reachedEffects
      && r.status.Mismatched? && r.status.provided == params.Keys
      && r.status.cause.Some? && r.status.cause.value.UnexpectedKeywords?
      && key in r.status.cause.value.keys
  {
  }

  /** A required parameter left out is a mismatch and the handler body never runs;
      unless an unexpected keyword is reported first, the error names it. */
  lemma MissingRequiredIsMismatch(name: string, params: map<string, Json>, i: nat, rest: Opaque)
    requires name in Commands && i < |Commands[name]|
    requires Commands[name][i].default.None? && Commands[name][i].name !in params
    ensures var r := Dispatch(name, params, rest);
      && r.call.None? && !r.reachedEffects
      && r.status.Mismatched? && r.status.provided == params.Keys && r.status.cause.Some?
    ensures var r := Dispatch(name, params, rest);
      params.Keys <= Names(Commands[name]) ==>
        && r.status.cause.value.MissingArguments?
        && Commands[name][i].name in r.status.cause.value.names
  {
  }

  /** A truthy name that is not a string makes `name.lower()` raise
      AttributeError: an execution failure, not a parameter mismatch. */
  lemma KillProcessNonStringNameFails(rest: Opaque)
    ensures Dispatch("kill_process_by_name", map["name" := JInt(5)], rest).status == Failed(OtherError)
  {
    GuardedSignatures();
  }

  /** No call of `delete_file` whose `confirm` is absent or falsy gets past the guard. */
  lemma DeleteFileWithoutConfirmHasNoEffect(params: map<string, Json>, rest: Opaque)
    requires "confirm" !in params || !Truthy(params["confirm"])
    ensures !Dispatch("delete_file", params, rest).reachedEffects
    ensures Dispatch("delete_file", params, rest).status != Failed(OtherError)
  {
    GuardedSignatures();
    var r := Dispatch("delete_file", params, rest);
    if r.call.Some? {
      assert "confirm" in r.call.value;
      if "confirm" !in params {
        assert Commands["delete_file"][1].name == "confirm";
        assert r.call.value["confirm"] == JBool(false);
      }
    }
  }

  /** Dispatch reaches the process table only for a non-empty, unprotected string name. */
  lemma KillProcessOnlyUnprotectedNames(params: map<string, Json>, rest: Opaque)
    ensures Dispatch("kill_process_by_name", params, rest).reachedEffects ==>
      && params.Keys == {"name"}
      && params["name"].JStr?
      && params["name"].s != ""
      && Lower(params["name"].s) !in ProtectedProcessNames
  {
    GuardedSignatures();
  }
}

=== FILE: handlers.dfy ===
/** What the model knows of the handler bodies: the guard each one runs before
    touching the system. Everything after a guard is opaque. */
module Handlers {
  import opened Json
  import opened Python
  import opened Registry

  /** How a handler body ends: it returns, or an exception escapes it. */
  datatype BodyOutcome = Returned | Raised(error: PyError)

  /** The unmodelled part of a handler, after its guard has let the call through. */
  type Opaque = (string, map<string, Json>) -> BodyOutcome

  datatype Refusal = NotConfirmed | NameMissing | NameProtected

  /** The start of a handler body: go on, return early with a log line, or raise. */
  datatype Guard = Proceed | Refuse(why: Refusal) | Crash(error: PyError)

  /** How a handler call went: its outcome, and whether it got past its guard
      to the filesystem or process work. */
  datatype HandlerRun = HandlerRun(outcome: BodyOutcome, reachedEffects: bool)

  const ProtectedProcessNames: set<string> := {
    "csrss.exe", "wininit.exe", "winlogon.exe", "services.exe",
    "smss.exe", "lsass.exe", "svchost.exe", "system"
  }

  /** `str.lower` on ASCII letters; other characters are left alone. */
  function LowerChar(c: char): char {
    if 'A' <= c <= 'Z' then (c as int + 32) as char else c
  }

  function Lower(s: string): string {
    seq(|s|, i requires 0 <= i < |s| => LowerChar(s[i]))
  }

  /** `delete_file` checks only the truth value of `confirm`. */
  function DeleteFileGuard(confirm: Json): (r: Guard)
    ensures r.Proceed? <==> Truthy(confirm)
    ensures !r.Proceed? ==> r == Refuse(NotConfirmed)
  {
    if !Truthy(confirm) then Refuse(NotConfirmed) else Proceed
  }

  /** `kill_process_by_name` refuses a falsy name, raises AttributeError on a
      truthy non-string (`name.lower()`), and refuses a protected name in any case. */
  function KillProcessGuard(name: Json): (r: Guard)
    ensures r.Proceed? <==> name.JStr? && name.s != "" && Lower(name.s) !in ProtectedProcessNames
    ensures r.Crash? <==> Truthy(name) && !name.JStr?
    ensures r.Crash? ==> r.error == OtherError
    ensures r.Refuse? ==> r.why == (if Truthy(name) then NameProtected else NameMissing)
  {
    if !Truthy(name) then Refuse(NameMissing)
    else if !name.JStr? then Crash(OtherError)
    else if Lower(name.s) in ProtectedProcessNames then Refuse(NameProtected)
    else Proceed
  }

  /** The guard run by the handler registered under `name`, on its bound arguments. */
  function GuardFor(name: string, args: map<string, Json>): Guard
    requires name in Commands && args.Keys == Names(Commands[name])
  {
    if name == "delete_file" then
      assert Commands[name][1].name == "confirm";
      DeleteFileGuard(args["confirm"])
    else if name == "kill_process_by_name" then
      assert Commands[name][0].name == "name";
      KillProcessGuard(args["name"])
    else Proceed
  }

  /** A handler call: a refusing guard returns normally without effects, a
      crashing guard raises, and past the guard the opaque rest decides. */
  function RunHandler(name: string, args: map<string, Json>, rest: Opaque): (r: HandlerRun)
    requires name in Commands && args.Keys == Names(Commands[name])
    ensures r.reachedEffects <==> GuardFor(name, args).Proceed?
    ensures r.reachedEffects ==> r.outcome == rest(name, args)
    ensures GuardFor(name, args).Refuse? ==> r.outcome == Returned
    ensures GuardFor(name, args).Crash? ==> r.outcome == Raised(GuardFor(name, args).error)
  {
    match GuardFor(name, args)
    case Proceed => HandlerRun(rest(name, args), true)
    case Refuse(_) => HandlerRun(Returned, false)
    case Crash(e) => HandlerRun(Raised(e), false)
  }

  // ---------------------------------------------------------------------------
  // Properties of the two guards
  // ---------------------------------------------------------------------------

  /** `delete_file` goes on to the existence check and removal iff `confirm` is truthy. */
  lemma DeleteFileNeedsTruthyConfirm(args: map<string, Json>, rest: Opaque)
    requires args.Keys == Names(Commands["delete_file"])
    ensures RunHandler("delete_file", args, rest).reachedEffects <==> Truthy(args["confirm"])
    ensures !Truthy(args["confirm"]) ==> RunHandler("delete_file", args, rest).outcome == Returned
  {
  }

  /** `kill_process_by_name` reaches the process table only for a non-empty
      string whose lower-case form is not protected. */
  lemma KillProcessGuardedByName(args: map<string, Json>, rest: Opaque)
    requires args.Keys == Names(Commands["kill_process_by_name"])
    ensures RunHandler("kill_process_by_name", args, rest).reachedEffects <==>
      args["name"].JStr? && args["name"].s != "" && Lower(args["name"].s) !in ProtectedProcessNames
  {
  }

  /** Spellings that differ only in case are treated alike. */
  lemma KillProcessGuardIgnoresCase(s: string, t: string)
    requires Lower(s) == Lower(t)
    ensures KillProcessGuard(JStr(s)) == KillProcessGuard(JStr(t))
  {
    assert |s| == |Lower(s)| == |Lower(t)| == |t|;
  }

  /** A mixed-case protected name is refused. */
  lemma KillProcessRefusesMixedCase()
    ensures KillProcessGuard(JStr("SvcHost.EXE")) == Refuse(NameProtected)
  {
    assert Lower("SvcHost.EXE") == "svchost.exe";
  }
}

=== FILE: json.dfy ===
/** A decoded JSON value, as `json.loads` hands it to the agent. */
module Json {

  /** Objects are maps from key to value: after decoding, a duplicated key keeps
      its last value and the agent never depends on key order. */
  datatype Json =
    | JNull
    | JBool(b: bool)
    | JInt(i: int)
    | JFloat(f: real)
    | JStr(s: string)
    | JArr(items: seq<Json>)
    | JObj(fields: map<string, Json>)

  const EmptyObject: Json := JObj(map[])
}

=== FILE: mailbox.dfy ===
/** `process_command_file` and `clear_command_file`: one pass over the file
    mailbox, and the polling loop as a sequence of such passes. */
module Mailbox {
  import opened Wrappers
  import opened Json
  import opened Text
  import opened Request
  import opened Handlers
  import opened Dispatcher

  /** The command file: missing, or present with its text (size 0 iff the text is empty). */
  datatype Slot = Absent | File(text: string)

  const Cleared: Slot := File("")

  /** What `json.loads` made of the stripped text: a `JSONDecodeError`, any
      other exception (such as the `ValueError` for an over-long integer
      literal, or a `RecursionError`), or a value. */
  datatype Parsed = Malformed | ParseCrashed | Decoded(value: Json)

  /** What the pass cannot see: whether the file can be read (size, open,
      UTF-8 decoding; a file whose existence check fails reads as Absent,
      since `os.path.exists` then answers False) and written, the JSON parser, and the handler
      bodies past their guards. */
  datatype Env = Env(readable: bool, writable: bool, parse: string -> Parsed, rest: Opaque)

  datatype Warning = InvalidJson | Refused(why: Rejection)

  /** What a pass does, in order. `ClearTried(false)` is a clear that hit an I/O
      error and logged it. `seen` is the mailbox as the handler finds it. */
  datatype Event =
    | Warned(warning: Warning)
    | UnexpectedError
    | Dispatched(name: string, params: map<string, Json>, report: Report, seen: Slot)
    | ClearTried(ok: bool)

  datatype PassResult = PassResult(slot: Slot, events: seq<Event>)

  /** Opening for writing creates the file if needed and truncates it; when it
      fails, nothing changes. */
  function Clear(slot: Slot, writable: bool): (r: Slot)
    ensures writable ==> r.File? && r.text == ""
    ensures !writable ==> r == slot
  {
    if writable then Cleared else slot
  }

  /** The `try` block: every early exit leaves through `finally`, so it only
      reports the slot as it stands and what happened. */
  function TryBlock(slot: Slot, env: Env): (r: PassResult)
    ensures r.slot != slot ==> r.events == [Warned(InvalidJson), ClearTried(env.writable)]
  {
    if slot.Absent? || slot.text == "" then PassResult(slot, [])
    else if !env.readable then PassResult(slot, [UnexpectedError])
    else
      var content := Strip(slot.text);
      if content == "" then PassResult(slot, [])
      else
        match env.parse(content)
        case Malformed =>
          PassResult(Clear(slot, env.writable), [Warned(InvalidJson), ClearTried(env.writable)])
        case ParseCrashed => PassResult(slot, [UnexpectedError])
        case Decoded(data) =>
          match Normalize(data)
          case Rejected(why) =>
            PassResult(slot, if why == NotARequest then [] else [Warned(Refused(why))])
          case Raised(_) => PassResult(slot, [UnexpectedError])
          case Accepted(name, params) =>
            PassResult(slot, [Dispatched(name, params, Dispatch(name, params, env.rest), slot)])
  }

  /** The `try` block leaves the mailbox as it was, or as one clear leaves it. */
  lemma TryBlockSlot(slot: Slot, env: Env)
    ensures TryBlock(slot, env).slot == slot || TryBlock(slot, env).slot == Clear(slot, env.writable)
  {
    if slot.Absent? || slot.text == "" || !env.readable || Strip(slot.text) == "" {
    } else {
      match env.parse(Strip(slot.text))
      case Malformed =>
      case ParseCrashed =>
      case Decoded(data) =>
        match Normalize(data)
        case Accepted(_, _) =>
        case Rejected(_) =>
        case Raised(_) =>
    }
  }

  /** The dispatch the mailbox's request calls for: the name and params the
      validator accepted from it, and the report of dispatching them. */
  function DispatchOf(slot: Slot, env: Env): (e: Event)
    requires Deliverable(slot, env)
    ensures e.Dispatched? && e.seen == slot && e.name in Registry.Commands
    ensures Normalize(env.parse(Strip(slot.text)).value) == Accepted(e.name, e.params)
    ensures e.report == Dispatch(e.name, e.params, env.rest)
  {
    var a := Normalize(env.parse(Strip(slot.text)).value);
    Dispatched(a.name, a.params, Dispatch(a.name, a.params, env.rest), slot)
  }

  /** The `try` block dispatches a handler exactly when the mailbox holds a
      deliverable request; it dispatches that request, and the handler finds
      it still in the mailbox. */
  lemma TryBlockDispatch(slot: Slot, env: Env)
    ensures Deliverable(slot, env) ==> TryBlock(slot, env).events == [DispatchOf(slot, env)]
    ensures var r := TryBlock(slot, env);
      !Deliverable(slot, env) ==> forall i :: 0 <= i < |r.events| ==> !r.events[i].Dispatched?
  {
    if slot.Absent? || slot.text == "" || !env.readable || Strip(slot.text) == "" {
    } else {
      match env.parse(Strip(slot.text))
      case Malformed =>
      case ParseCrashed =>
      case Decoded(data) =>
        match Normalize(data)
        case Accepted(_, _) =>
        case Rejected(_) =>
        case Raised(_) =>
    }
  }

  function DispatchCount(events: seq<Event>): nat {
    if events == [] then 0
    else (if events[0].Dispatched? then 1 else 0) + DispatchCount(events[1..])
  }

  lemma {:induction false} NoDispatchCountsZero(events: seq<Event>)
    requires forall i :: 0 <= i < |events| ==> !events[i].Dispatched?
    ensures DispatchCount(events) == 0
  {
    if events != [] {
      NoDispatchCountsZero(events[1..]);
    }
  }

  lemma {:induction false} DispatchCountAppend(a: seq<Event>, b: seq<Event>)
    ensures DispatchCount(a + b) == DispatchCount(a) + DispatchCount(b)
  {
    if a == [] {
      assert a + b == b;
    } else {
      assert (a + b)[1..] == a[1..] + b;
      DispatchCountAppend(a[1..], b);
    }
  }

  /** The mailbox holds a request that reaches a handler: non-blank text that
      reads, parses and passes validation. */
  predicate Deliverable(slot: Slot, env: Env) {
    && slot.File?
    && env.readable
    && Strip(slot.text) != ""
    && env.parse(Strip(slot.text)).Decoded?
    && Normalize(env.parse(Strip(slot.text)).value).Accepted?
  }

  /** One pass. The clear in `finally` always runs last, after any dispatch, so
      the handler still finds its request in the mailbox; the pass leaves the
      mailbox empty unless that clear fails, and then leaves it as it was. */
  function Pass(slot: Slot, env: Env): (r: PassResult)
    ensures env.writable ==> r.slot == Cleared
    ensures !env.writable ==> r.slot == slot
    ensures |r.events| > 0 && r.events[|r.events| - 1] == ClearTried(env.writable)
    ensures DispatchCount(r.events) <= 1
    ensures DispatchCount(r.events) == 1 <==> Deliverable(slot, env)
    ensures Deliverable(slot, env) ==> r.events == [DispatchOf(slot, env), ClearTried(env.writable)]
    ensures forall i :: 0 <= i < |r.events| && r.events[i].Dispatched? ==>
      && i < |r.events| - 1
      && r.events[i].seen == slot
      && r.events[i].name in Registry.Commands
  {
    var t := TryBlock(slot, env);
    TryBlockSlot(slot, env);
    TryBlockDispatch(slot, env);
    var events := t.events + [ClearTried(env.writable)];
    DispatchCountAppend(t.events, [ClearTried(env.writable)]);
    assert DispatchCount([ClearTried(env.writable)]) == 0;
    assert DispatchCount(t.events) == (if Deliverable(slot, env) then 1 else 0) by {
      if !Deliverable(slot, env) {
        NoDispatchCountsZero(t.events);
      }
    }
    assert forall i :: 0 <= i < |t.events| ==> events[i] == t.events[i];
    PassResult(Clear(t.slot, env.writable), events)
  }

  /** What one pass means to the polling loop: the mailbox it leaves behind
      and whether it dispatched a handler. */
  datatype Step = Step(slot: Slot, delivered: bool)

  function StepOf(slot: Slot, env: Env): (r: Step)
    ensures env.writable ==> r.slot == Cleared
    ensures !env.writable ==> r.slot == slot
    ensures r.delivered <==> Deliverable(slot, env)
  {
    var pass := Pass(slot, env);
    Step(pass.slot, DispatchCount(pass.events) == 1)
  }

  /** The mailbox a pass starts from, once the producer's write (if any) has landed. */
  function Before(slot: Slot, write: Option<string>): Slot {
    if write.Some? then File(write.value) else slot
  }

  /** The result of polling: the final mailbox, and for each pass whether it
      dispatched a handler. */
  datatype RunResult = RunResult(slot: Slot, delivered: seq<bool>)

  /** The polling loop over any pass function. Before pass i a producer may
      overwrite the mailbox with `writes[i]`; None means nothing was written in
      that interval. */
  function Poll(slot: Slot, writes: seq<Option<string>>, step: Slot -> Step): (r: RunResult)
    ensures |r.delivered| == |writes|
    ensures writes == [] ==> r.slot == slot
    ensures writes != [] && (forall s :: step(s).slot == Cleared) ==> r.slot == Cleared
    decreases |writes|
  {
    if writes == [] then RunResult(slot, [])
    else
      var s := step(Before(slot, writes[0]));
      var rest := Poll(s.slot, writes[1..], step);
      RunResult(rest.slot, [s.delivered] + rest.delivered)
  }

  /** The agent's loop: `process_command_file` once per poll interval. */
  function Run(slot: Slot, env: Env, writes: seq<Option<string>>): (r: RunResult)
    ensures |r.delivered| == |writes|
    ensures env.writable && writes != [] ==> r.slot == Cleared
  {
    Poll(slot, writes, s => StepOf(s, env))
  }

  /** If every pass empties the mailbox, a pass delivers only what was written
      just before it, or what was waiting at the start. */
  lemma {:induction false} PollDeliversOnlyFreshWrites(slot: Slot, writes: seq<Option<string>>, step: Slot -> Step)
    requires forall s :: step(s).slot == Cleared
    ensures forall i :: 0 <= i < |writes| && Poll(slot, writes, step).delivered[i] ==>
      || writes[i].Some?
      || (i == 0 && step(slot).delivered)
      || (i > 0 && step(Cleared).delivered)
    decreases |writes|
  {
    if writes != [] {
      var s := step(Before(slot, writes[0]));
      var tail := writes[1..];
      PollDeliversOnlyFreshWrites(Cleared, tail, step);
      var r := Poll(slot, writes, step);
      var rest := Poll(Cleared, tail, step);
      assert r.delivered == [s.delivered] + rest.delivered;
      forall i | 1 <= i < |writes| && r.delivered[i]
        ensures writes[i].Some? || step(Cleared).delivered
      {
        assert rest.delivered[i - 1];
        assert tail[i - 1] == writes[i];
      }
    }
  }

  /** If a pass leaves the mailbox as it found it and dispatches, every pass with
      no new write dispatches the same request again. */
  lemma {:induction false} PollReplaysStuckRequest(slot: Slot, writes: seq<Option<string>>, step: Slot -> Step)
    requires step(slot) == Step(slot, true)
    requires forall i :: 0 <= i < |writes| ==> writes[i].None?
    ensures forall i :: 0 <= i < |writes| ==> Poll(slot, writes, step).delivered[i]
    decreases |writes|
  {
    if writes != [] {
      var tail := writes[1..];
      assert forall i :: 0 <= i < |tail| ==> tail[i] == writes[i + 1];
      PollReplaysStuckRequest(slot, tail, step);
      var r := Poll(slot, writes, step);
      var rest := Poll(slot, tail, step);
      assert r.delivered == [true] + rest.delivered;
      forall i | 0 <= i < |writes|
        ensures r.delivered[i]
      {
        if i > 0 {
          assert rest.delivered[i - 1];
        }
      }
    }
  }

  // ---------------------------------------------------------------------------
  // Properties
  // ---------------------------------------------------------------------------

  /** Clearing twice ends where clearing once does. */
  lemma ClearIdempotent(slot: Slot, writable: bool)
    ensures Clear(Clear(slot, writable), writable) == Clear(slot, writable)
  {
  }

  /** Malformed JSON is never normalised: the pass warns, clears inside the
      `try`, clears again in `finally`, and ends as one clear would. */
  lemma MalformedIsDropped(slot: Slot, env: Env)
    requires slot.File? && env.readable && Strip(slot.text) != ""
    requires env.parse(Strip(slot.text)) == Malformed
    ensures Pass(slot, env).events == [Warned(InvalidJson), ClearTried(env.writable), ClearTried(env.writable)]
    ensures Pass(slot, env).slot == Clear(slot, env.writable)
  {
    assert TryBlock(slot, env) ==
      PassResult(Clear(slot, env.writable), [Warned(InvalidJson), ClearTried(env.writable)]);
  }

  /** A value that is not a non-empty object is dropped without a warning. */
  lemma NonRequestIsSilent(slot: Slot, env: Env)
    requires slot.File? && env.readable && Strip(slot.text) != ""
    requires env.parse(Strip(slot.text)).Decoded? && !IsRequest(env.parse(Strip(slot.text)).value)
    ensures Pass(slot, env).events == [ClearTried(env.writable)]
  {
    var data := env.parse(Strip(slot.text)).value;
    assert Normalize(data) == Rejected(NotARequest);
    assert TryBlock(slot, env).events == [];
  }

  /** A missing, empty or (readable) whitespace-only mailbox dispatches nothing
      and logs nothing, and the pass still leaves an empty file behind, creating
      it if it was missing. */
  lemma BlankMailboxIsNoop(slot: Slot, env: Env)
    requires slot.Absent? || slot.text == "" || (env.readable && AllSpace(slot.text))
    ensures Pass(slot, env).events == [ClearTried(env.writable)]
    ensures env.writable ==> Pass(slot, env).slot == Cleared
  {
    if slot.File? {
      assert Strip(slot.text) == "";
    }
    assert TryBlock(slot, env).events == [];
  }

  /** At most once: with a working clear, a pass dispatches only a request
      written just before it, or the one waiting in the mailbox at start. */
  lemma AtMostOnceDelivery(slot: Slot, env: Env, writes: seq<Option<string>>)
    requires env.writable
    ensures forall i :: 0 <= i < |writes| && Run(slot, env, writes).delivered[i] ==>
      writes[i].Some? || (i == 0 && Deliverable(slot, env))
  {
    var step := s => StepOf(s, env);
    assert forall s :: step(s).slot == Cleared;
    assert !step(Cleared).delivered by {
      assert !Deliverable(Cleared, env);
    }
    PollDeliversOnlyFreshWrites(slot, writes, step);
  }

  /** Without a working clear the request is replayed on every later pass,
      until a new write replaces it. */
  lemma ReplayWhenClearFails(slot: Slot, env: Env, writes: seq<Option<string>>)
    requires !env.writable && Deliverable(slot, env)
    requires forall i :: 0 <= i < |writes| ==> writes[i].None?
    ensures forall i :: 0 <= i < |writes| ==> Run(slot, env, writes).delivered[i]
  {
    var step := s => StepOf(s, env);
    assert step(slot) == Step(slot, true);
    PollReplaysStuckRequest(slot, writes, step);
  }

  /** `main` writes "{}" into a missing mailbox before polling starts. */
  function Startup(slot: Slot): (r: Slot)
    ensures r.File?
    ensures slot.File? ==> r == slot
    ensures slot.Absent? ==> r.text == "{}"
  {
    if slot.Absent? then File("{}") else slot
  }

  /** The placeholder `main` writes is an empty object: the first pass drops
      it without a log line and dispatches nothing. */
  lemma StartupPlaceholderIsInert(env: Env)
    requires env.readable && env.parse("{}") == Decoded(EmptyObject)
    ensures !Deliverable(Startup(Absent), env)
    ensures Pass(Startup(Absent), env).events == [ClearTried(env.writable)]
  {
    var text := "{}";
    assert text[0] == '{' && text[|text| - 1] == '}';
    assert !IsSpace('{') && !IsSpace('}');
    StripKeepsTrimmed(text);
    NonRequestIsSilent(File(text), env);
  }
}

=== FILE: python.dfy ===
/** The few pieces of Python semantics the request pipeline relies on. */
module Python {
  import opened Json

  /** The two exception classes the dispatcher tells apart: `TypeError` and everything else. */
  datatype PyError = TypeError | OtherError

  /** Python truth value of a decoded JSON value: `None`, `False`, zero and empty
      strings, lists and dicts are falsy; everything else is truthy. */
  predicate Truthy(j: Json) {
    match j
    case JNull => false
    case JBool(b) => b
    case JInt(i) => i != 0
    case JFloat(f) => f != 0.0
    case JStr(s) => |s| > 0
    case JArr(items) => |items| > 0
    case JObj(fields) => |fields| > 0
  }

  /** Lists and dicts cannot be looked up in a dict (`TypeError: unhashable type`). */
  predicate Hashable(j: Json) {
    !j.JArr? && !j.JObj?
  }
}

=== FILE: registry.dfy ===
/** The `COMMANDS` table: every command name the agent will run, with the Python
    signature of the function registered under it. */
module Registry {
  import opened Wrappers
  import opened Json

  /** One parameter of a handler; `default` is None for a parameter the caller must supply. */
  datatype Param = Param(name: string, default: Option<Json>)

  /** Positional-or-keyword parameters in declaration order. No handler declares
      `*args` or `**kwargs`, so these names are the only keywords it accepts. */
  type Signature = seq<Param>

  function Required(name: string): Param {
    Param(name, None)
  }

  function Defaulted(name: string, value: Json): Param {
    Param(name, Some(value))
  }

  /** The registry, read off the handler definitions. */
  const Commands: map<string, Signature> := map[
    "message" := [Required("text")],
    "open_app" := [Required("path")],
    "run_powershell_script" := [Required("script")],
    "system_check" := [],
    "delete_file" := [Required("path"), Defaulted("confirm", JBool(false))],
    "kill_process_by_name" := [Required("name")],
    "create_file" := [Required("path"), Defaulted("content", JStr(""))],
    "create_folder" := [Required("path")],
    "move_file" := [Required("from_path"), Required("to_path")],
    "copy_file" := [Required("from_path"), Required("to_path")],
    "rename_file" := [Required("path"), Required("new_name")],
    "list_dir" := [Required("path")],
    "read_file" := [Required("path")],
    "write_file" := [Required("path"), Required("content")],
    "append_file" := [Required("path"), Required("content")],
    "run_instrukey" := [Required("path")],
    "scan_defender" := [Required("path")],
    "list_processes" := [],
    "start_process" := [Required("path"), Defaulted("args", JStr(""))]
  ]

  /** The keywords a signature accepts. */
  function Names(sig: Signature): set<string> {
    if sig == [] then {} else {sig[0].name} + Names(sig[1..])
  }

  /** Python refuses a `def` that repeats a parameter name. */
  predicate DistinctNames(sig: Signature) {
    forall i, j :: 0 <= i < j < |sig| ==> sig[i].name != sig[j].name
  }

  /** Every registered signature is one Python would accept, and no registered
      name is empty (so a registered name is always truthy). */
  lemma CommandsWellFormed()
    ensures forall n :: n in Commands ==> DistinctNames(Commands[n]) && n != ""
  {
  }

  /** The keywords the two guarded handlers accept. */
  lemma GuardedSignatures()
    ensures Names(Commands["delete_file"]) == {"path", "confirm"}
    ensures Names(Commands["kill_process_by_name"]) == {"name"}
  {
    var del, kill := Commands["delete_file"], Commands["kill_process_by_name"];
    assert del[0].name == "path" && del[1].name == "confirm";
    assert kill[0].name == "name";
  }
}

=== FILE: request.dfy ===
/** `normalize_and_validate_command`: turns a decoded mailbox value into a
    command name and a keyword-argument map, or rejects it. */
module Request {
  import opened Json
  import opened Python
  import opened Registry

  /** Why a value was turned away. Every reason but NotARequest logs a warning. */
  datatype Rejection = NotARequest | MissingCommand | UnknownCommand | InvalidParams

  datatype Checked =
    | Accepted(name: string, params: map<string, Json>)
    | Rejected(why: Rejection)
    | Raised(error: PyError)

  // ---------------------------------------------------------------------------
  // Declarative view of a request, independent of the order of the checks
  // ---------------------------------------------------------------------------

  /** Only a non-empty JSON object is looked at. */
  predicate IsRequest(data: Json) {
    data.JObj? && |data.fields| > 0
  }

  /** The value of the `"command"` key; `dict.get` yields None when it is absent. */
  function CommandOf(data: Json): Json
    requires data.JObj?
  {
    if "command" in data.fields then data.fields["command"] else JNull
  }

  /** The params a request asks for: without a `"params"` key, every other key
      but `"command"` (the legacy flat form); with one, its value, where a falsy
      value stands for the empty object. */
  function ParamsOf(data: Json): Json
    requires data.JObj?
  {
    if "params" !in data.fields then JObj(data.fields - {"command"})
    else if Truthy(data.fields["params"]) then data.fields["params"]
    else EmptyObject
  }

  /** Membership in `COMMANDS`: only a string can equal one of its keys. */
  predicate Registered(command: Json) {
    command.JStr? && command.s in Commands
  }

  // ---------------------------------------------------------------------------
  // The procedure as written
  // ---------------------------------------------------------------------------

  /** The checks run in order and stop at the first failure: not a non-empty
      object, falsy command, command not registered (an unhashable one raises
      here), params not an object. */
  function Normalize(data: Json): (r: Checked)
    ensures r == Rejected(NotARequest) <==> !IsRequest(data)
    ensures r == Rejected(MissingCommand) <==> IsRequest(data) && !Truthy(CommandOf(data))
    ensures r.Raised? <==> IsRequest(data) && Truthy(CommandOf(data)) && !Hashable(CommandOf(data))
    ensures r.Raised? ==> r.error == TypeError
    ensures r == Rejected(UnknownCommand) <==>
      IsRequest(data) && Truthy(CommandOf(data)) && Hashable(CommandOf(data)) && !Registered(CommandOf(data))
    ensures r == Rejected(InvalidParams) <==>
      IsRequest(data) && Registered(CommandOf(data)) && !ParamsOf(data).JObj?
    ensures r.Accepted? <==>
      IsRequest(data) && Registered(CommandOf(data)) && ParamsOf(data).JObj?
    ensures r.Accepted? ==>
      r.name in Commands && CommandOf(data) == JStr(r.name) && ParamsOf(data) == JObj(r.params)
  {
    CommandsWellFormed();
    if !data.JObj? || |data.fields| == 0 then Rejected(NotARequest)
    else
      // The legacy adapter writes the folded params back into the dict.
      var obj :=
        if "params" in data.fields then data.fields
        else data.fields["params" := JObj(data.fields - {"command"})];
      var command := if "command" in obj then obj["command"] else JNull;
      if !Truthy(command) then Rejected(MissingCommand)
      else if !Hashable(command) then Raised(TypeError)
      else if !(command.JStr? && command.s in Commands) then Rejected(UnknownCommand)
      else
        var params := if Truthy(obj["params"]) then obj["params"] else EmptyObject;
        if !params.JObj? then Rejected(InvalidParams)
        else Accepted(command.s, params.fields)
  }

  // ---------------------------------------------------------------------------
  // Properties
  // ---------------------------------------------------------------------------

  /** Legacy flat form: the params are exactly the other top-level keys. */
  lemma LegacyFormFoldsKeys(fields: map<string, Json>, name: string)
    requires "params" !in fields
    requires "command" in fields && fields["command"] == JStr(name) && name in Commands
    ensures Normalize(JObj(fields)) == Accepted(name, fields - {"command"})
  {
  }

  /** Canonical form: an object under `"params"` is passed through unchanged. */
  lemma CanonicalParamsPassThrough(fields: map<string, Json>, name: string, params: map<string, Json>)
    requires "command" in fields && fields["command"] == JStr(name) && name in Commands
    requires "params" in fields && fields["params"] == JObj(params)
    ensures Normalize(JObj(fields)) == Accepted(name, params)
  {
    if |params| == 0 {
      assert params == map[];
    }
  }

  /** Canonical form: top-level keys other than `"command"` and `"params"` are ignored. */
  lemma ExtraKeysIgnored(fields: map<string, Json>, key: string, value: Json)
    requires "params" in fields
    requires key != "command" && key != "params"
    ensures Normalize(JObj(fields[key := value])) == Normalize(JObj(fields))
  {
    var data, data' := JObj(fields), JObj(fields[key := value]);
    assert CommandOf(data') == CommandOf(data);
    assert ParamsOf(data') == ParamsOf(data);
  }

  /** The legacy and canonical spellings of the same request are treated alike. */
  lemma LegacyMatchesCanonical(command: Json, flat: map<string, Json>)
    requires "command" !in flat && "params" !in flat
    ensures Normalize(JObj(flat["command" := command]))
         == Normalize(JObj(map["command" := command, "params" := JObj(flat)]))
  {
    var legacy := JObj(flat["command" := command]);
    var canonical := JObj(map["command" := command, "params" := JObj(flat)]);
    assert flat["command" := command] - {"command"} == flat;
    if |flat| == 0 {
      assert flat == map[];
    }
    assert IsRequest(legacy) && IsRequest(canonical);
    assert ParamsOf(legacy) == ParamsOf(canonical);
    assert CommandOf(legacy) == CommandOf(canonical);
  }

  /** A falsy `"params"` (null, false, 0, "", [], {}) is accepted as no params at all. */
  lemma FalsyParamsBecomeEmpty(fields: map<string, Json>, name: string)
    requires "command" in fields && fields["command"] == JStr(name) && name in Commands
    requires "params" in fields && !Truthy(fields["params"])
    ensures Normalize(JObj(fields)) == Accepted(name, map[])
  {
  }

  /** An unregistered name is turned away whatever else the request holds. */
  lemma UnregisteredNeverAccepted(data: Json)
    requires data.JObj? && CommandOf(data).JStr? && CommandOf(data).s !in Commands
    ensures !Normalize(data).Accepted?
    ensures CommandOf(data).s != "" ==> Normalize(data) == Rejected(UnknownCommand)
  {
  }
}

=== FILE: scenarios.dfy ===
/** Concrete requests, taken from the repository's unit tests, run through the model. */
module Scenarios {
  import opened Wrappers
  import opened Json
  import opened Registry
  import opened Request
  import opened Handlers
  import opened Binding
  import opened Dispatcher
  import opened Python
  import opened Mailbox
  import opened Text

  /** tests/test_agent.py: a canonical request passes its params through. */
  lemma StandardCommandTest()
    ensures Normalize(JObj(map["command" := JStr("message"), "params" := JObj(map["text" := JStr("hello")])]))
         == Accepted("message", map["text" := JStr("hello")])
  {
    CanonicalParamsPassThrough(
      map["command" := JStr("message"), "params" := JObj(map["text" := JStr("hello")])],
      "message", map["text" := JStr("hello")]);
  }

  /** tests/test_agent.py: a flat request folds its other keys into params. */
  lemma LegacyCommandTest()
    ensures Normalize(JObj(map["command" := JStr("message"), "text" := JStr("hello legacy")]))
         == Accepted("message", map["text" := JStr("hello legacy")])
  {
    var fields := map["command" := JStr("message"), "text" := JStr("hello legacy")];
    LegacyFormFoldsKeys(fields, "message");
    assert fields - {"command"} == map["text" := JStr("hello legacy")];
  }

  /** tests/test_agent.py: an unregistered name is turned away. */
  lemma UnknownCommandTest()
    ensures Normalize(JObj(map["command" := JStr("non_existent_command"), "params" := EmptyObject]))
         == Rejected(UnknownCommand)
  {
    assert "non_existent_command" !in Commands;
  }

  /** tests/test_agent.py: a request without `"command"` is turned away. */
  lemma MissingCommandTest()
    ensures Normalize(JObj(map["params" := JObj(map["text" := JStr("some text")])]))
         == Rejected(MissingCommand)
  {
  }

  /** tests/test_agent.py: the empty object is dropped. */
  lemma EmptyObjectTest()
    ensures Normalize(EmptyObject) == Rejected(NotARequest)
  {
  }

  /** tests/test_agent.py: params that are a non-empty string are turned away. */
  lemma InvalidParamsTest()
    ensures Normalize(JObj(map["command" := JStr("message"), "params" := JStr("not-a-dict")]))
         == Rejected(InvalidParams)
  {
  }

  /** `delete_file` with an extra keyword: a parameter mismatch, body not run. */
  lemma DispatchWrongParam(rest: Opaque)
    ensures var params := map["path" := JStr("/test.txt"), "wrong_param" := JStr("should cause error")];
      Dispatch("delete_file", params, rest)
        == Report(None, false, Mismatched(params.Keys, Some(UnexpectedKeywords({"wrong_param"}))))
  {
    var params := map["path" := JStr("/test.txt"), "wrong_param" := JStr("should cause error")];
    GuardedSignatures();
    var sig := Commands["delete_file"];
    assert (set k | k in params && k !in Names(sig)) == {"wrong_param"};
    assert Bind(sig, params) == Err(UnexpectedKeywords({"wrong_param"}));
  }

  /** Both keywords of `delete_file` supplied: the body runs on exactly those values. */
  lemma DeleteFileBindsAsGiven(params: map<string, Json>, rest: Opaque)
    requires params.Keys == {"path", "confirm"}
    ensures Dispatch("delete_file", params, rest).call == Some(params)
    ensures Dispatch("delete_file", params, rest).reachedEffects == Truthy(params["confirm"])
  {
    GuardedSignatures();
    var r := Dispatch("delete_file", params, rest);
    assert r.call.Some?;
    assert r.call.value == params;
  }

  /** `delete_file` with `confirm` true: the body runs once with exactly those arguments. */
  lemma DispatchConfirmedDelete(rest: Opaque)
    ensures var params := map["path" := JStr("/test.txt"), "confirm" := JBool(true)];
      var r := Dispatch("delete_file", params, rest);
      && r.call == Some(params)
      && r.reachedEffects
      && (rest("delete_file", params) == Returned ==> r.status == Succeeded)
  {
    var params := map["path" := JStr("/test.txt"), "confirm" := JBool(true)];
    DeleteFileBindsAsGiven(params, rest);
  }

  /** `delete_file` with `confirm` false is dispatched and succeeds, but its guard
      returns before the existence check. */
  lemma DispatchUnconfirmedDelete(rest: Opaque)
    ensures var params := map["path" := JStr("dummy.txt"), "confirm" := JBool(false)];
      Dispatch("delete_file", params, rest) == Report(Some(params), false, Succeeded)
  {
    var params := map["path" := JStr("dummy.txt"), "confirm" := JBool(false)];
    DeleteFileBindsAsGiven(params, rest);
    GuardedSignatures();
    assert GuardFor("delete_file", params) == Refuse(NotConfirmed);
  }

  /** `delete_file` with `confirm` set to the string "no": truthy, so the guard lets it through. */
  lemma DispatchDeleteWithStringConfirm(rest: Opaque)
    ensures var params := map["path" := JStr("dummy.txt"), "confirm" := JStr("no")];
      Dispatch("delete_file", params, rest).reachedEffects
  {
    var params := map["path" := JStr("dummy.txt"), "confirm" := JStr("no")];
    DeleteFileBindsAsGiven(params, rest);
  }

  /** tests/test_agent.py: `confirm` left out takes its default, False, so
      the call succeeds without reaching the existence check. */
  lemma DispatchDeleteConfirmMissing(rest: Opaque)
    ensures var params := map["path" := JStr("dummy.txt")];
      Dispatch("delete_file", params, rest)
        == Report(Some(params["confirm" := JBool(false)]), false, Succeeded)
  {
    var params := map["path" := JStr("dummy.txt")];
    var args := params["confirm" := JBool(false)];
    DeleteFileDefaultsConfirm(params);
    GuardedSignatures();
    assert GuardFor("delete_file", args) == Refuse(NotConfirmed);
    assert RunHandler("delete_file", args, rest) == HandlerRun(Returned, false);
  }

  /** Binding `delete_file` with only `path` fills in `confirm=False`. */
  lemma DeleteFileDefaultsConfirm(params: map<string, Json>)
    requires params.Keys == {"path"}
    ensures Bind(Commands["delete_file"], params) == Ok(params["confirm" := JBool(false)])
  {
    var sig := Commands["delete_file"];
    GuardedSignatures();
    CommandsWellFormed();
    assert sig == [Required("path"), Defaulted("confirm", JBool(false))];
    assert (set k | k in params && k !in Names(sig)) == {};
    assert MissingRequired(sig[1..][1..], params) == [] by {
      assert sig[1..][1..] == [];
    }
    assert MissingRequired(sig[1..], params) == [];
    assert MissingRequired(sig, params) == [];
    var filled := Fill(sig, params);
    assert filled.Keys == {"path", "confirm"};
    assert sig[1].name == "confirm" && sig[1].name !in params;
    assert filled["confirm"] == JBool(false);
    assert filled == params["confirm" := JBool(false)];
  }



  /** A flat request `{"command": "message", "text": "hi"}` binds `text` to "hi". */
  lemma LegacyMessageDispatch(rest: Opaque)
    ensures Normalize(JObj(map["command" := JStr("message"), "text" := JStr("hi")]))
         == Accepted("message", map["text" := JStr("hi")])
    ensures Dispatch("message", map["text" := JStr("hi")], rest).call == Some(map["text" := JStr("hi")])
  {
    var fields := map["command" := JStr("message"), "text" := JStr("hi")];
    var params := map["text" := JStr("hi")];
    LegacyFormFoldsKeys(fields, "message");
    assert fields - {"command"} == params;
    assert Commands["message"][0].name == "text";
    assert params.Keys == Names(Commands["message"]);
    assert Dispatch("message", params, rest).call.value == params;
  }

  /** The same request read from the mailbox: the handler runs while the
      mailbox still holds the request, and the pass then empties the mailbox. */
  lemma LegacyMessagePass(text: string, env: Env)
    requires text == "{\"command\":\"message\",\"text\":\"hi\"}"
    requires env.readable && env.writable
    requires env.parse(text) == Decoded(JObj(map["command" := JStr("message"), "text" := JStr("hi")]))
    ensures Pass(File(text), env).slot == Cleared
    ensures Pass(File(text), env).events[0].Dispatched?
    ensures Pass(File(text), env).events[0].seen == File(text)
    ensures Pass(File(text), env).events[0].report.call == Some(map["text" := JStr("hi")])
  {
    assert text[0] == '{' && text[|text| - 1] == '}';
    assert !IsSpace('{') && !IsSpace('}');
    StripKeepsTrimmed(text);
    LegacyMessageDispatch(env.rest);
    var params := map["text" := JStr("hi")];
    var report := Dispatch("message", params, env.rest);
    assert Strip(text) == text;
    assert Normalize(env.parse(text).value) == Accepted("message", params);
    assert Deliverable(File(text), env);
    assert DispatchOf(File(text), env) == Dispatched("message", params, report, File(text));
  }
}

=== FILE: text.dfy ===
/** `str.strip()` with no argument, as applied to the mailbox contents. */
module Text {

  /** The characters for which Python's `str.isspace` holds. */
  predicate IsSpace(c: char) {
    var n := c as int;
    || 0x09 <= n <= 0x0D
    || 0x1C <= n <= 0x20
    || n == 0x85 || n == 0xA0 || n == 0x1680
    || 0x2000 <= n <= 0x200A
    || n == 0x2028 || n == 0x2029 || n == 0x202F || n == 0x205F || n == 0x3000
  }

  predicate AllSpace(s: string) {
    forall i :: 0 <= i < |s| ==> IsSpace(s[i])
  }

  /** The length of the whitespace run at the start: everything before it is
      whitespace and the character after it is not. */
  function LeadingSpaces(s: string): (n: nat)
    ensures n <= |s|
    ensures forall i :: 0 <= i < n ==> IsSpace(s[i])
    ensures n < |s| ==> !IsSpace(s[n])
  {
    if s == [] || !IsSpace(s[0]) then 0
    else 1 + LeadingSpaces(s[1..])
  }

  /** The length of the whitespace run at the end, likewise. */
  function TrailingSpaces(s: string): (n: nat)
    ensures n <= |s|
    ensures forall i :: |s| - n <= i < |s| ==> IsSpace(s[i])
    ensures n < |s| ==> !IsSpace(s[|s| - 1 - n])
  {
    if s == [] || !IsSpace(s[|s| - 1]) then 0
    else 1 + TrailingSpaces(s[..|s| - 1])
  }

  /** The result is empty iff the input is all whitespace; otherwise it is the
      slice of the input between the two whitespace runs, and neither starts
      nor ends with whitespace. */
  function Strip(s: string): (r: string)
    ensures r == [] <==> AllSpace(s)
    ensures r != [] ==> !IsSpace(r[0]) && !IsSpace(r[|r| - 1])
    ensures r != [] ==> r == s[LeadingSpaces(s)..|s| - TrailingSpaces(s)]
  {
    var a := LeadingSpaces(s);
    if a == |s| then []
    else
      var b := TrailingSpaces(s);
      s[a..|s| - b]
  }

  lemma {:induction false} StripIdempotent(s: string)
    ensures Strip(Strip(s)) == Strip(s)
  {
    var r := Strip(s);
    if r != [] {
      assert LeadingSpaces(r) == 0;
      assert TrailingSpaces(r) == 0;
      assert r[0..|r|] == r;
    }
  }

  /** Text that begins and ends with a non-space is left alone by `strip`. */
  lemma StripKeepsTrimmed(text: string)
    requires text != [] && !IsSpace(text[0]) && !IsSpace(text[|text| - 1])
    ensures Strip(text) == text
  {
    assert LeadingSpaces(text) == 0;
    assert TrailingSpaces(text) == 0;
    assert text[0..|text|] == text;
  }
}

=== FILE: wrappers.dfy ===
/** Option and Result: how the model spells the source's `None` returns and raised exceptions. */
module Wrappers {

  datatype Option<+T> = None | Some(value: T)

  datatype Result<+T, +E> = Ok(value: T) | Err(error: E)
}
